=== FILE: README.md ===
# Whounfollowedme relationship analytics, modelled in Dafny

Whounfollowedme is a small Streamlit app that reads an Instagram
followers export and a following export and reports who does not follow
you back, whom you do not follow back, a username search with a
relationship label, growth statistics (the most active hour of day, the ten
longest-standing followers, peak and trough months), and, on a second page,
a comparison of an older and a newer followers export.

This project models the analytics engine under the UI as pure Dafny
functions and methods and proves what they compute:

| file | module | models |
|---|---|---|
| `results.dfy` | `Results` | `Option` and `Result`, for absent fields and raised errors |
| `export.dfy` | `Export` | the parsed export: entries with optional keys and a possibly empty `string_list_data` list |
| `records.dfy` | `Records` | a normalised row `(username, timestamp, link)` and the username set of a snapshot |
| `calendar.dfy` | `Calendar` | hour of day, whole elapsed days and month of an epoch-seconds instant (naive UTC) |
| `normalizer.dfy` | `Normalizer` | `process_json_data` and its two errors |
| `relationships.dfy` | `Relationships` | `analyze_data`, the search tab's filter and its mutual / follows-you / you-follow branches |
| `temporal.dfy` | `Temporal` | `find_most_active_time`, `calculate_follower_loyalty`, `identify_seasonal_trends` |
| `comparison.dfy` | `FollowerComparison` | the gained / lost / unchanged sets and the net change of the comparison page |

Timestamps are integer epoch seconds. `pd.to_datetime(..., unit='s')`
gives naive UTC times, so the hour is `(t / 3600) % 24` and elapsed whole
days are `(now - t) / 86400`. Dafny's `/` and `%` with a positive divisor
round down, as pandas does, also before 1970. The month comes from an
explicit proleptic Gregorian decomposition of the day number. It counts
from 0000-03-01, by 400-year eras, centuries, four-year groups and years.
The current time is the parameter `now`.

The normaliser keeps pandas' order of evaluation, because that order decides
which error a broken file produces:

- An empty export has no `string_list_data` column, so it gets the
  invalid-JSON error. So does an export where no entry has that key.
- The three per-row reads (`value`, then `timestamp`, then `href`) each stop
  at the first failing row.
- An entry without `string_list_data`, next to entries that have it, holds
  NaN and raises `TypeError`. That gives the processing error.
- An empty `string_list_data` raises `IndexError`, which also gives the
  processing error.
- A missing key gives the invalid-JSON error naming that key.
- A timestamp outside pandas' nanosecond range (about 1677 to 2262) gives
  the processing error. The one exception, −2^63, is numpy's NaT marker,
  which pandas accepts as a missing date (see "## Left out").
- Dropping `title` and `media_list_data` raises `KeyError` when no entry had
  the key.
- The followers file must be an array. The following file must be an
  object with `relationships_following`. An array given as the following
  file raises `TypeError` (processing error). An object given as the
  followers file has no `string_list_data` column (invalid-JSON error).

## Model

| member | source | states |
|---|---|---|
| `Normalizer.ProcessJsonData` | app.py:13-28 | Succeeds exactly when the payload has the shape its kind expects and every entry is well formed. On success it returns one record per entry, in order, and each record holds the `value`, `timestamp` and `href` of the entry's first `string_list_data` element. Every error names the file kind. |
| `Normalizer.ProcessEntries` | app.py:16-24 | On a list of entries: succeeds iff the list is well formed (the column exists, every row can be read and converted, `title` and `media_list_data` columns exist). The output has the same length and order as the entries, with the first-element fields; errors carry the kind. |
| `Normalizer.Report` | app.py:25-28 | A `KeyError` becomes the invalid-JSON error carrying the missing key. Any other exception becomes the processing error carrying its cause. Both carry the file kind. |
| `Normalizer.FirstFault` | app.py:20-22 | One per-row read pass fails iff some row cannot be read. When it fails, the fault is that of a row all of whose predecessors were readable, i.e. the first failing row. |
| `Normalizer.ProcessingErrorHasCause` | app.py:15-28 | A processing error always has a cause in the payload: an array given as the following file, an entry without `string_list_data`, an empty nested list, or a timestamp outside the datetime range. It is never a missing key. |
| `Normalizer.InvalidJsonNamesAbsentKey` | app.py:15-26 | The key an invalid-JSON error names is really absent: `relationships_following`, the `string_list_data` column, a field of some first element, or the `title` / `media_list_data` column. |
| `Normalizer.EmptyNestedListIsProcessingError` | app.py:20-28 | An empty nested list, reached before any other unreadable row, yields the processing error with `IndexError`, not the invalid-JSON error. |
| `Normalizer.MissingValueIsInvalidJson` | app.py:20-26 | When every entry has a non-empty list and some first element lacks `value`, the result is the invalid-JSON error for that kind naming `value`. |
| `Normalizer.EmptyExportIsInvalidJson` | app.py:16-26 | An export with no entries has no `string_list_data` column and yields the invalid-JSON error. |
| `Records.UsernamesIgnoreRepeats` | pages/Follower_Comparison.py:25-26 | Inserting a row anywhere whose username the snapshot already lists, with any timestamp or link, leaves the username set unchanged. |
| `Calendar.HourOf` | app.py:49 | The hour of day is in 0..23. |
| `Calendar.WholeDaysBetween` | app.py:56 | `.dt.days` rounds down: `d` whole days satisfy `d*86400 <= now - t < (d+1)*86400`, also for negative spans. |
| `Calendar.MonthOf` | app.py:61 | The month is in 1..12. |
| `Calendar.HourOfIsDaily` | app.py:49 | Adding whole days does not change the hour. |
| `Calendar.MonthOfIsPeriodic` | app.py:61 | Adding a whole 400-year Gregorian cycle does not change the month. |
| `Calendar.EpochSample` | app.py:49-61 | 1970-01-01 00:00:00 is hour 0 of January. |
| `Calendar.BeforeEpochSample` | app.py:49-61 | One second before the epoch is hour 23 of December: hours and days round down for negative times. |
| `Calendar.RecentSample` | app.py:49-61 | 1700000000 is 2023-11-14 22:13:20: hour 22, November. |
| `Calendar.LeapDaySamples` | app.py:61 | 2000-02-29 is in February and 2000-03-01 in March (the 400-year leap day and the era boundary). |
| `Calendar.WholeDaySamples` | app.py:56 | 86399 s is 0 days, 86400 s is 1 day, and −1 s is −1 day. |
| `Relationships.AnalyzeData` | app.py:39-46 | With both snapshots: the first set holds exactly the accounts you follow that do not follow you, the second exactly the followers you do not follow. With either snapshot absent: two empty sets. |
| `Relationships.MutualSet` | app.py:205-209 | Holds exactly the usernames listed in both snapshots. |
| `Relationships.AnalyzePartitionsUnion` | app.py:41-45 | Not-following-back, not-followed-back and mutual are pairwise disjoint and together are exactly the union of both username sets. |
| `Relationships.Classify` | app.py:205-215 | Mutual iff in both snapshots, follows-you iff only a follower, you-follow iff only followed, no-relationship iff in neither. Each label is tied to the set engine's sets. |
| `Relationships.DropDuplicates` | app.py:198-199 | The result has no repeated username and holds exactly the input usernames. |
| `Relationships.DropDuplicatesOfDistinct` | app.py:199 | A list without repeats comes back unchanged. |
| `Relationships.Matching` | app.py:200 | Keeps exactly the usernames that contain the term ignoring case, and keeps them distinct. |
| `Relationships.ContainsItself` | app.py:200 | Every username matches itself as a search term. |
| `Relationships.Search` | app.py:197-215 | An empty term gives no results. Otherwise the results are exactly the usernames of either snapshot that contain the term ignoring case, each once. Each carries its classification, which is never no-relationship. |
| `Relationships.SearchFindsListedUser` | app.py:198-204 | Searching for a listed username finds it. |
| `Relationships.AnalyzeExample` | app.py:41-45 | Followers {a, b} and following {b, c}: not following back is {c}, not followed back is {a}, b is mutual, a follows you, you follow c. |
| `Temporal.HourCountsSumToSize` | app.py:49-50 | The 24 hour counts add up to the number of records. |
| `Temporal.SingleHourSnapshot` | app.py:50-51 | If every record is in hour h, h is the only most active hour. |
| `Temporal.MostActiveHour` | app.py:49-51 | Fails exactly on an empty snapshot, and then with the empty-snapshot error. Otherwise it returns an hour in 0..23 that occurs and whose count no other hour exceeds. |
| `Temporal.ActiveWindowReadsBack` | app.py:52 | The window is 13 characters. Both hours are written as two decimal digits, zero-padded as `:02d` does. It reads back as start hour `h`, then ":00 - ", then end hour `(h+1) % 24`, then ":00". |
| `Temporal.ActiveWindowSamples` | app.py:52 | Hour 23 gives "23:00 - 00:00", 14 gives "14:00 - 15:00", 0 gives "00:00 - 01:00". |
| `Temporal.FindMostActiveTime` | app.py:48-52 | Fails exactly on an empty snapshot, and then with the empty-snapshot error. Otherwise it returns the window of a most active hour. |
| `Temporal.AllInHourFourteen` | app.py:49-52 | When every record is in hour 14, the window is "14:00 - 15:00". |
| `Temporal.TopRanked` | app.py:57 | Returns min(n, size) distinct positions, ranked by more days and then by earlier row. Every row left out ranks after every row returned. |
| `Temporal.TopRankingIsUnique` | app.py:57 | Only one list of positions meets that ranking, so the model's reading of `nlargest` with `keep='first'` picks one answer. |
| `Temporal.LoyaltyDays` | app.py:56 | One value per record: the whole days `d` from its timestamp `t` to `now`, rounded down, so `d*86400 <= now - t < (d+1)*86400`. |
| `Temporal.CalculateFollowerLoyalty` | app.py:54-58 | Fails, with the timedelta overflow, exactly when some record is more than 9223372036 s away from `now` (the `timedelta64[ns]` range). Otherwise returns min(10, size) rows. Each row is an input record's username with its whole days to `now`. Rows are in non-increasing order of days, ties in input order, and no omitted record ranks ahead of a returned one. |
| `Temporal.MonthCountsSumToSize` | app.py:61-62 | The twelve month counts add up to the number of records. |
| `Temporal.PeakAndTroughAreUnique` | app.py:62-64 | The peak and the trough are each unique, and the trough's count is at most the peak's. |
| `Temporal.SingleMonthSnapshot` | app.py:61-64 | If every record is in month m, m is both the only peak and the only trough. |
| `Temporal.IdentifySeasonalTrends` | app.py:60-64 | Fails exactly on an empty snapshot, and then with the empty-snapshot error. Otherwise the peak is the lowest month with maximal count. The trough is the lowest month with minimal count among months that have records. |
| `FollowerComparison.Compare` | pages/Follower_Comparison.py:25-51 | Gained are the usernames only in the newer export, lost those only in the older, kept those in both. The net change equals gained minus lost. |
| `FollowerComparison.ComparePartitions` | pages/Follower_Comparison.py:25-51 | Gained, lost and kept are pairwise disjoint. Gained ∪ kept is the newer set and lost ∪ kept the older set. The net change is the newer size minus the older size. |
| `FollowerComparison.CompareWithItself` | pages/Follower_Comparison.py:28-51 | Comparing an export with itself gains and loses nothing, keeps every username, and changes the count by 0. |
| `FollowerComparison.CompareSwapped` | pages/Follower_Comparison.py:28-51 | Swapping the exports swaps gained and lost, keeps kept, and negates the net change. |
| `FollowerComparison.CompareIgnoresRepeatInBefore` | pages/Follower_Comparison.py:22-26 | Inserting, at any position of the older export, a row that repeats one of its usernames (with any timestamp or link) does not change the comparison. |
| `FollowerComparison.CompareIgnoresRepeatInAfter` | pages/Follower_Comparison.py:22-26 | The same for such a row inserted anywhere in the newer export. |
| `FollowerComparison.ComparePayloads` | pages/Follower_Comparison.py:17-30 | Both files go through the followers normaliser, the older one first. The comparison runs iff both normalise; an error from the older file wins, and when only the newer file fails its own error is returned; every error names "followers". |
| `FollowerComparison.CompareExample` | pages/Follower_Comparison.py:28-51 | Older {a, b} and newer {b, c}: gained {c}, lost {a}, kept {b}, net change 0. |

## Left out

- Streamlit widgets, the language switch and the translated message texts (`get_text`) are not modelled. Errors are modelled by kind, file type and missing key or cause, not by message text.
- FollowerComparison.ComparePayloads: the error branches of `process_json_data` read `st.session_state.lang` (app.py:26, 28). The main page sets it first; the comparison page does not, so when that page is opened before the main page has run, a failing file raises `AttributeError` instead of either modelled error. The contract assumes the language is set.
- The plotly growth charts (`create_growth_charts`, `display_growth_analysis`) only render.
- `load_data` and the `JSONDecodeError` branch (app.py:30-37) are library parsing. The payload is modelled as already parsed, and a file that is not uploaded is the `None` snapshot that `AnalyzeData` accepts.
- The follower ratio (app.py:169-170) is float division and formatting.
- The relationship tables of tab 2 (app.py:183-192) are display-only lookups and sorting.
- JSON values of an unexpected type are not modelled. This covers a non-numeric timestamp, a non-string username, a `string_list_data` that is not a list, and nested objects that `json_normalize` would flatten into dotted columns.
- Normalizer.ProcessJsonData: an object given as the followers file is always treated as having no `string_list_data` column; a single-entry object carrying that key directly is not modelled.
- Normalizer.ProcessEntries: when `drop` misses both `title` and `media_list_data`, pandas names both; the model names `title` only.
- `pd.to_datetime(month, format='%m')` and `strftime('%B')` turn month numbers into month names for display. The model returns the month numbers.
- `pd.Timestamp.now()` is the parameter `now`, given on the same naive clock as the dates. The app reads local wall-clock time while the dates are UTC, so the real offset depends on the host time zone. Sub-second precision does not change whole days.
- The app adds `hour`, `loyalty_days` and `month` columns to the caller's frame in place. The model is pure.
- Relationships.ContainsIgnoringCase: `str.contains` treats the term as a regular expression; the model matches it literally, with ASCII-only case folding.
- Relationships.Search: the contract does not state the order of the results (first occurrence in followers, then in following); the body keeps that order.
- Relationships.DropDuplicates: the contract does not state that the first occurrence is the one kept; the body does.
- Temporal.MostActiveHour: the contract promises only some hour of maximal count. `value_counts` does not fix an order among tied hours across pandas versions. The body happens to pick the lowest such hour.
- Temporal.CalculateFollowerLoyalty: ties in `loyalty_days` are ranked earlier row first. That is what `nlargest(keep='first')` promises when the frame has more than ten rows. With ten rows or fewer, pandas sorts the whole column with its default, not necessarily stable, sort, so the order among tied rows there is the model's choice.
- Temporal.CalculateFollowerLoyalty: the overflow bound is checked on whole seconds. `now` carries sub-second precision, so a span within one second of 9223372036 s may overflow in the app and not in the model.
- Normalizer.ProcessJsonData: a timestamp of exactly −2^63 (−9223372036854775808) is numpy's NaT marker. `pd.to_datetime(..., unit='s')` turns it into NaT instead of raising, so pandas keeps that row with a missing date. The model rejects it as out of range with the processing error, because missing dates are not modelled.
- Normalizer.ProcessEntries: its datetime-range step rejects the timestamp −2^63 for the same reason, where pandas gives NaT and keeps the row.

=== FILE: calendar.dfy ===
/** Calendar views of an epoch-seconds timestamp, as pandas reads a naive
    UTC `datetime64`: hour of day, whole elapsed days and month of year.
    Dafny's `/` and `%` with a positive divisor floor, which is what
    pandas does for instants before 1970 too. */
module Calendar {

  const SecondsPerHour: int := 3600
  const SecondsPerDay: int := 86400

  /** Largest and smallest whole second pandas can hold as a nanosecond
      `datetime64`; `to_datetime(..., unit='s')` rejects anything outside. */
  const MaxEpochSecond: int := 9223372036
  const MinEpochSecond: int := -9223372036

  predicate InDatetimeRange(t: int)
  {
    MinEpochSecond <= t <= MaxEpochSecond
  }

  /** Longest span, in whole seconds, a nanosecond `timedelta64` can hold;
      subtracting two instants further apart raises `OverflowError`. */
  const MaxSpanSeconds: int := 9223372036

  predicate InTimedeltaRange(d: int)
  {
    -MaxSpanSeconds <= d <= MaxSpanSeconds
  }

  /** `.dt.hour` of the instant `t`. */
  function HourOf(t: int): (h: int)
    ensures 0 <= h < 24
  {
    (t / SecondsPerHour) % 24
  }

  /** `.dt.days` of the time span `now - t`: whole days, rounded down. */
  function WholeDaysBetween(now: int, t: int): (d: int)
    ensures d * SecondsPerDay <= now - t < (d + 1) * SecondsPerDay
  {
    (now - t) / SecondsPerDay
  }

  /** Days from 0000-03-01 (proleptic Gregorian) to 1970-01-01. */
  const EpochDayOffset: int := 719468
  const DaysPerEra: int := 146097      // 400 years
  const DaysPerCentury: int := 36524   // 100 years starting in March, no 400-leap day
  const DaysPerOlympiad: int := 1461   // 4 years starting in March, one leap day

  /** Month (1..12) of the day `doy` counted from March 1st (0..365). */
  function MonthOfMarchDay(doy: int): (m: int)
    requires 0 <= doy <= 365
    ensures 1 <= m <= 12
  {
    var mp := (5 * doy + 2) / 153;   // 0 = March, ..., 11 = February
    if mp < 10 then mp + 3 else mp - 9
  }

  /** Day (0..365) of the year that starts on March 1st, for a day counted
      from the start of a 400-year era that itself starts on March 1st. */
  function MarchDayOfEraDay(doe: int): (doy: int)
    requires 0 <= doe < DaysPerEra
    ensures 0 <= doy <= 365
  {
    // The fourth century of an era is one day longer (it ends on a 400-leap day).
    var c := if doe / DaysPerCentury < 3 then doe / DaysPerCentury else 3;
    var doc := doe - c * DaysPerCentury;
    assert 0 <= doc <= DaysPerCentury;
    // The last four-year group of a century is one day shorter, which the
    // division absorbs; within a group the fourth year is the leap year.
    var doq := doc % DaysPerOlympiad;
    var y := if doq / 365 < 3 then doq / 365 else 3;
    doq - y * 365
  }

  /** `.dt.month` of the instant `t`. */
  function MonthOf(t: int): (m: int)
    ensures 1 <= m <= 12
  {
    var z := t / SecondsPerDay + EpochDayOffset;
    MonthOfMarchDay(MarchDayOfEraDay(z % DaysPerEra))
  }

  /** Hours repeat every day. */
  lemma HourOfIsDaily(t: int, k: int)
    ensures HourOf(t + k * SecondsPerDay) == HourOf(t)
  {
    assert t + k * SecondsPerDay == (t / SecondsPerHour + 24 * k) * SecondsPerHour + t % SecondsPerHour;
    assert (t + k * SecondsPerDay) / SecondsPerHour == t / SecondsPerHour + 24 * k;
  }

  /** Months repeat every 400 years (the Gregorian cycle). */
  lemma MonthOfIsPeriodic(t: int, k: int)
    ensures MonthOf(t + k * DaysPerEra * SecondsPerDay) == MonthOf(t)
  {
    var d := t / SecondsPerDay;
    assert t + k * DaysPerEra * SecondsPerDay == (d + k * DaysPerEra) * SecondsPerDay + t % SecondsPerDay;
    assert (t + k * DaysPerEra * SecondsPerDay) / SecondsPerDay == d + k * DaysPerEra;
    var z := d + EpochDayOffset;
    assert (z + k * DaysPerEra) % DaysPerEra == z % DaysPerEra;
  }

  /** 1970-01-01 00:00:00 is day 135080 of its era, March-day 306. */
  lemma EpochSample()
    ensures HourOf(0) == 0 && MonthOf(0) == 1
  {
    assert MarchDayOfEraDay(135080) == 306;
    assert MonthOfMarchDay(306) == 1;
  }

  /** 1969-12-31 23:59:59, the second before the epoch. */
  lemma BeforeEpochSample()
    ensures HourOf(-1) == 23 && MonthOf(-1) == 12
  {
    assert -1 / SecondsPerDay == -1;
    assert MarchDayOfEraDay(135079) == 305;
    assert MonthOfMarchDay(305) == 12;
  }

  /** 2023-11-14 22:13:20. */
  lemma RecentSample()
    ensures HourOf(1700000000) == 22 && MonthOf(1700000000) == 11
  {
    assert 1700000000 / SecondsPerDay == 19675;
    assert MarchDayOfEraDay(8658) == 258;
    assert MonthOfMarchDay(258) == 11;
  }

  /** 2000-02-29, the last day of a 400-year era, and 2000-03-01, the first
      day of the next. */
  lemma LeapDaySamples()
    ensures MonthOf(951782400) == 2
    ensures MonthOf(951868800) == 3
  {
    assert 951782400 / SecondsPerDay == 11016;
    assert MarchDayOfEraDay(146096) == 365;
    assert MonthOfMarchDay(365) == 2;
    assert 951868800 / SecondsPerDay == 11017;
    assert MarchDayOfEraDay(0) == 0;
    assert MonthOfMarchDay(0) == 3;
  }

  /** Whole days round down, also for a span that is negative. */
  lemma WholeDaySamples()
    ensures WholeDaysBetween(86399, 0) == 0 && WholeDaysBetween(86400, 0) == 1
    ensures WholeDaysBetween(0, 1) == -1
  {
  }
}

=== FILE: comparison.dfy ===
/** The follower-comparison page: two followers exports, an older one and a newer one,
    compared by username set. */
module FollowerComparison {
  import opened Results
  import opened Export
  import opened Records
  import Normalizer

  /** What the page reports: who was gained, lost or kept, and the signed
      change in follower count. */
  datatype Comparison = Comparison(gained: set<string>, lost: set<string>, kept: set<string>, netChange: int)

  /** The comparison of two normalised snapshots. */
  function Compare(before: Snapshot, after: Snapshot): (c: Comparison)
    ensures forall u :: u in c.gained <==> Lists(after, u) && !Lists(before, u)
    ensures forall u :: u in c.lost <==> Lists(before, u) && !Lists(after, u)
    ensures forall u :: u in c.kept <==> Lists(after, u) && Lists(before, u)
    ensures c.netChange == |c.gained| - |c.lost|
  {
    var beforeSet := Usernames(before);
    var afterSet := Usernames(after);
    var gained := afterSet - beforeSet;
    var lost := beforeSet - afterSet;
    var kept := afterSet * beforeSet;
    assert afterSet == gained + kept && gained !! kept;
    assert beforeSet == lost + kept && lost !! kept;
    Comparison(gained, lost, kept, |afterSet| - |beforeSet|)
  }

  /** The three sets are pairwise disjoint; gained and kept make up the
      newer snapshot, lost and kept the older one. */
  lemma ComparePartitions(before: Snapshot, after: Snapshot)
    ensures var c := Compare(before, after);
            && c.gained !! c.lost && c.gained !! c.kept && c.lost !! c.kept
            && c.gained + c.kept == Usernames(after)
            && c.lost + c.kept == Usernames(before)
            && c.netChange == |Usernames(after)| - |Usernames(before)|
  {
    var c := Compare(before, after);
    assert |Usernames(after)| == |c.gained| + |c.kept| by {
      assert c.gained + c.kept == Usernames(after);
    }
    assert |Usernames(before)| == |c.lost| + |c.kept| by {
      assert c.lost + c.kept == Usernames(before);
    }
  }

  /** Comparing a snapshot with itself: nothing gained or lost. */
  lemma CompareWithItself(s: Snapshot)
    ensures Compare(s, s) == Comparison({}, {}, Usernames(s), 0)
  {
    var c := Compare(s, s);
    assert c.gained == {};
    assert c.lost == {};
  }

  /** Swapping the two exports swaps gained and lost and negates the change. */
  lemma CompareSwapped(a: Snapshot, b: Snapshot)
    ensures Compare(b, a).gained == Compare(a, b).lost
    ensures Compare(b, a).lost == Compare(a, b).gained
    ensures Compare(b, a).kept == Compare(a, b).kept
    ensures Compare(b, a).netChange == -Compare(a, b).netChange
  {
  }

  /** Only the username sets matter: a row inserted anywhere in the older
      export, repeating a username it already lists, changes nothing. */
  lemma CompareIgnoresRepeatInBefore(before: Snapshot, after: Snapshot, i: int, x: Record)
    requires 0 <= i <= |before| && Lists(before, x.username)
    ensures Compare(before[..i] + [x] + before[i..], after) == Compare(before, after)
  {
    UsernamesIgnoreRepeats(before, i, x);
    var c := Compare(before, after);
    var c1 := Compare(before[..i] + [x] + before[i..], after);
    assert c1.gained == c.gained && c1.lost == c.lost && c1.kept == c.kept;
  }

  /** The same for a repeated username inserted into the newer export. */
  lemma CompareIgnoresRepeatInAfter(before: Snapshot, after: Snapshot, j: int, y: Record)
    requires 0 <= j <= |after| && Lists(after, y.username)
    ensures Compare(before, after[..j] + [y] + after[j..]) == Compare(before, after)
  {
    UsernamesIgnoreRepeats(after, j, y);
    var c := Compare(before, after);
    var c2 := Compare(before, after[..j] + [y] + after[j..]);
    assert c2.gained == c.gained && c2.lost == c.lost && c2.kept == c.kept;
  }

  /** The page: both files go through the followers normaliser, the older one
      first, and the first error stops the comparison. */
  function ComparePayloads(beforeData: Payload, afterData: Payload)
    : (r: Result<Comparison, Normalizer.NormalizeError>)
    ensures r.Success? <==>
              Normalizer.ProcessJsonData(beforeData, Followers).Success?
              && Normalizer.ProcessJsonData(afterData, Followers).Success?
    ensures r.Failure? ==> r.error.kind == Followers
    ensures Normalizer.ProcessJsonData(beforeData, Followers).Failure? ==>
              r == Failure(Normalizer.ProcessJsonData(beforeData, Followers).error)
    ensures Normalizer.ProcessJsonData(beforeData, Followers).Success?
            && Normalizer.ProcessJsonData(afterData, Followers).Failure? ==>
              r == Failure(Normalizer.ProcessJsonData(afterData, Followers).error)
    ensures r.Success? ==>
              r.value == Compare(Normalizer.ProcessJsonData(beforeData, Followers).value,
                                 Normalizer.ProcessJsonData(afterData, Followers).value)
  {
    match Normalizer.ProcessJsonData(beforeData, Followers)
    case Failure(e) => Failure(e)
    case Success(before) =>
      match Normalizer.ProcessJsonData(afterData, Followers)
      case Failure(e) => Failure(e)
      case Success(after) => Success(Compare(before, after))
  }

  /** The older export lists a and b, the newer one b and c: c is gained,
      a is lost, b is kept and the count does not change. */
  lemma CompareExample(a: string, b: string, c: string, t: int, link: string)
    requires a != b && b != c && a != c
    ensures var r := Compare([Record(a, t, link), Record(b, t, link)], [Record(b, t, link), Record(c, t, link)]);
            r.gained == {c} && r.lost == {a} && r.kept == {b} && r.netChange == 0
  {
    var before := [Record(a, t, link), Record(b, t, link)];
    var after := [Record(b, t, link), Record(c, t, link)];
    UsernamesOfPair(before[0], before[1]);
    UsernamesOfPair(after[0], after[1]);
    assert Usernames(before) == {a, b};
    assert Usernames(after) == {b, c};
    var r := Compare(before, after);
    assert r.gained == {c};
    assert r.lost == {a};
    assert r.kept == {b};
    assert |r.gained| == 1 && |r.lost| == 1;
  }
}

=== FILE: export.dfy ===
/** The already-parsed shape of an Instagram relationship export.

    Only the keys the normaliser looks at are represented; every key is
    optional, because a hand-edited or foreign file may lack any of them. */
module Export {
  import opened Results

  /** Which relationship file a payload claims to be. */
  datatype Kind = Followers | Following

  /** One element of an entry's `string_list_data` list. */
  datatype Item = Item(value: Option<string>, timestamp: Option<int>, href: Option<string>)

  /** One entry of the export. `title` and `media_list_data` are only ever
      dropped, so only their presence is kept. */
  datatype Entry = Entry(hasTitle: bool, hasMediaList: bool, stringListData: Option<seq<Item>>)

  /** The top-level JSON value: an array of entries (the followers file), or
      an object that may hold the entries under `relationships_following`
      (the following file). */
  datatype Payload =
    | EntryArray(entries: seq<Entry>)
    | EntryObject(relationshipsFollowing: Option<seq<Entry>>)
}

=== FILE: normalizer.dfy ===
/** The record normaliser: `process_json_data`, which flattens an export
    into a frame of (username, date, link) rows or raises one of two errors.

    The model follows pandas' order of evaluation, since that order decides
    which error a broken file produces:
    1. `json_normalize` makes one column per key found in ANY entry, so an
       empty export or one where no entry has `string_list_data` has no such
       column, and reading it raises `KeyError`;
    2. three row-wise passes read `x[0]['value']`, `x[0]['timestamp']` and
       `x[0]['href']`, each stopping at the first row that fails; a row
       without `string_list_data` holds NaN (`TypeError`), an empty list
       raises `IndexError`, a missing key raises `KeyError`;
    3. `to_datetime(..., unit='s')` rejects timestamps outside pandas' range;
    4. `drop` raises `KeyError` when no entry had `title` or `media_list_data`.
    A `KeyError` becomes the invalid-JSON error, anything else the processing
    error, both tagged with the file kind. */
module Normalizer {
  import opened Results
  import opened Export
  import opened Records
  import Calendar

  /** The exception a step of the normaliser raises. */
  datatype Fault =
    | KeyMissing(key: string)   // KeyError
    | NotSubscriptable          // TypeError: a NaN cell indexed with [0]
    | IndexOutOfRange           // IndexError: `string_list_data` is empty
    | OutOfBoundsDatetime       // timestamp outside the nanosecond datetime range
    | ArrayIndexedByKey         // TypeError: `data['relationships_following']` on an array

  /** The two errors the normaliser raises, each naming the file kind. */
  datatype NormalizeError =
    | InvalidJson(kind: Kind, key: string)
    | ProcessingError(kind: Kind, cause: Fault)

  /** The two `except` clauses: a `KeyError` is reported as invalid JSON,
      any other exception as a processing failure. */
  function Report(kind: Kind, f: Fault): (e: NormalizeError)
    ensures e.kind == kind
    ensures e.InvalidJson? <==> f.KeyMissing?
    ensures f.KeyMissing? ==> e.key == f.key
    ensures !f.KeyMissing? ==> e.cause == f
  {
    match f
    case KeyMissing(k) => InvalidJson(kind, k)
    case _ => ProcessingError(kind, f)
  }

  /** The three keys read from the first `string_list_data` element. */
  datatype Field = Value | Timestamp | Href

  function FieldKey(f: Field): string
  {
    match f
    case Value => "value"
    case Timestamp => "timestamp"
    case Href => "href"
  }

  predicate HasField(it: Item, f: Field)
  {
    match f
    case Value => it.value.Some?
    case Timestamp => it.timestamp.Some?
    case Href => it.href.Some?
  }

  /** `x[0][key]` can be read for this entry. */
  predicate Readable(e: Entry, f: Field)
  {
    e.stringListData.Some? && |e.stringListData.value| > 0 && HasField(e.stringListData.value[0], f)
  }

  /** The exception `x[0][key]` raises for this entry, if any. */
  function CellFault(e: Entry, f: Field): (r: Option<Fault>)
    ensures r.None? <==> Readable(e, f)
  {
    match e.stringListData
    case None => Some(NotSubscriptable)
    case Some(items) =>
      if |items| == 0 then Some(IndexOutOfRange)
      else if HasField(items[0], f) then None
      else Some(KeyMissing(FieldKey(f)))
  }

  /** One row-wise `apply` pass: the exception of the first row that fails. */
  function FirstFault(es: seq<Entry>, f: Field): (r: Option<Fault>)
    ensures r.None? <==> forall i :: 0 <= i < |es| ==> Readable(es[i], f)
    ensures r.Some? ==> exists i :: 0 <= i < |es| && CellFault(es[i], f) == r
                                    && forall j :: 0 <= j < i ==> Readable(es[j], f)
    decreases |es|
  {
    if |es| == 0 then None
    else
      match CellFault(es[0], f)
      case Some(fault) => Some(fault)
      case None =>
        var rest := FirstFault(es[1..], f);
        if rest.Some? then
          ghost var i :| 0 <= i < |es| - 1 && CellFault(es[1..][i], f) == rest
                         && forall j :: 0 <= j < i ==> Readable(es[1..][j], f);
          assert CellFault(es[i + 1], f) == rest;
          rest
        else
          rest
  }

  /** Some entry has the key `string_list_data`, so the frame has that column. */
  predicate HasListColumn(es: seq<Entry>)
  {
    exists i | 0 <= i < |es| :: es[i].stringListData.Some?
  }

  predicate HasTitleColumn(es: seq<Entry>)
  {
    exists i | 0 <= i < |es| :: es[i].hasTitle
  }

  predicate HasMediaColumn(es: seq<Entry>)
  {
    exists i | 0 <= i < |es| :: es[i].hasMediaList
  }

  /** All three passes succeed on this entry and its timestamp converts. */
  predicate WellFormedEntry(e: Entry)
  {
    && Readable(e, Value) && Readable(e, Timestamp) && Readable(e, Href)
    && Calendar.InDatetimeRange(e.stringListData.value[0].timestamp.value)
  }

  /** A list of entries the normaliser accepts. */
  predicate WellFormedEntries(es: seq<Entry>)
  {
    && HasListColumn(es)
    && (forall i :: 0 <= i < |es| ==> WellFormedEntry(es[i]))
    && HasTitleColumn(es)
    && HasMediaColumn(es)
  }

  /** The row of a readable entry: the first list element's fields. */
  function RecordOf(e: Entry): (r: Record)
    requires Readable(e, Value) && Readable(e, Timestamp) && Readable(e, Href)
  {
    var it := e.stringListData.value[0];
    Record(it.value.value, it.timestamp.value, it.href.value)
  }

  /** The normaliser applied to a list of entries. */
  function ProcessEntries(kind: Kind, es: seq<Entry>): (r: Result<Snapshot, NormalizeError>)
    ensures r.Success? <==> WellFormedEntries(es)
    ensures r.Success? ==> |r.value| == |es|
    ensures r.Success? ==> forall i :: 0 <= i < |es| ==>
              var it := es[i].stringListData.value[0];
              r.value[i] == Record(it.value.value, it.timestamp.value, it.href.value)
    ensures r.Failure? ==> r.error.kind == kind
  {
    if !HasListColumn(es) then Failure(InvalidJson(kind, "string_list_data"))
    else match FirstFault(es, Value)
    case Some(f) => Failure(Report(kind, f))
    case None =>
      match FirstFault(es, Timestamp)
      case Some(f) => Failure(Report(kind, f))
      case None =>
        if exists i | 0 <= i < |es| :: !Calendar.InDatetimeRange(es[i].stringListData.value[0].timestamp.value) then
          Failure(ProcessingError(kind, OutOfBoundsDatetime))
        else match FirstFault(es, Href)
        case Some(f) => Failure(Report(kind, f))
        case None =>
          if !HasTitleColumn(es) then Failure(InvalidJson(kind, "title"))
          else if !HasMediaColumn(es) then Failure(InvalidJson(kind, "media_list_data"))
          else Success(seq(|es|, i requires 0 <= i < |es| => RecordOf(es[i])))
  }

  /** The payload shape each kind expects: the followers file is an array of
      entries, the following file an object holding them under
      `relationships_following`. */
  predicate ShapeFits(data: Payload, kind: Kind)
  {
    match kind
    case Followers => data.EntryArray?
    case Following => data.EntryObject? && data.relationshipsFollowing.Some?
  }

  /** The entries of a payload whose shape fits its kind. */
  function EntriesOf(data: Payload): seq<Entry>
  {
    match data
    case EntryArray(es) => es
    case EntryObject(o) => if o.Some? then o.value else []
  }

  /** `process_json_data(data, file_type)`. */
  function ProcessJsonData(data: Payload, kind: Kind): (r: Result<Snapshot, NormalizeError>)
    ensures r.Success? <==> ShapeFits(data, kind) && WellFormedEntries(EntriesOf(data))
    ensures r.Failure? ==> r.error.kind == kind
    ensures r.Success? ==> |r.value| == |EntriesOf(data)|
    ensures r.Success? ==> forall i :: 0 <= i < |r.value| ==>
              var it := EntriesOf(data)[i].stringListData.value[0];
              r.value[i] == Record(it.value.value, it.timestamp.value, it.href.value)
  {
    match kind
    case Followers =>
      (match data
       // `json_normalize` of an object yields a single row without the column.
       case EntryObject(_) => Failure(InvalidJson(kind, "string_list_data"))
       case EntryArray(es) => ProcessEntries(kind, es))
    case Following =>
      (match data
       case EntryArray(_) => Failure(ProcessingError(kind, ArrayIndexedByKey))
       case EntryObject(None) => Failure(InvalidJson(kind, "relationships_following"))
       case EntryObject(Some(es)) => ProcessEntries(kind, es))
  }

  /** A processing error always has a cause in the payload: an array given
      as the following file, an entry without `string_list_data`, an entry
      whose list is empty, or a timestamp pandas cannot represent. */
  lemma ProcessingErrorHasCause(data: Payload, kind: Kind)
    requires ProcessJsonData(data, kind).Failure?
    requires ProcessJsonData(data, kind).error.ProcessingError?
    ensures var c := ProcessJsonData(data, kind).error.cause;
            var es := EntriesOf(data);
            && !c.KeyMissing?
            && (c.ArrayIndexedByKey? ==> kind == Following && data.EntryArray?)
            && (c.NotSubscriptable? ==> exists i :: 0 <= i < |es| && es[i].stringListData.None?)
            && (c.IndexOutOfRange? ==> exists i :: 0 <= i < |es| && es[i].stringListData == Some([]))
            && (c.OutOfBoundsDatetime? ==>
                  exists i :: 0 <= i < |es| && Readable(es[i], Timestamp)
                              && !Calendar.InDatetimeRange(es[i].stringListData.value[0].timestamp.value))
  {
  }

  /** The key an invalid-JSON error names is one the payload really lacks. */
  predicate KeyAbsent(data: Payload, kind: Kind, key: string)
  {
    var es := EntriesOf(data);
    if key == "relationships_following" then kind == Following && data == EntryObject(None)
    else if key == "string_list_data" then (kind == Followers && data.EntryObject?) || !HasListColumn(es)
    else if key == "title" then !HasTitleColumn(es)
    else if key == "media_list_data" then !HasMediaColumn(es)
    else exists f: Field, i :: f in {Value, Timestamp, Href} && key == FieldKey(f) && 0 <= i < |es| &&
           es[i].stringListData.Some? && |es[i].stringListData.value| > 0 && !HasField(es[i].stringListData.value[0], f)
  }

  lemma InvalidJsonNamesAbsentKey(data: Payload, kind: Kind)
    requires ProcessJsonData(data, kind).Failure?
    requires ProcessJsonData(data, kind).error.InvalidJson?
    ensures KeyAbsent(data, kind, ProcessJsonData(data, kind).error.key)
  {
    var es := EntriesOf(data);
    var r := ProcessJsonData(data, kind);
    if ShapeFits(data, kind) && HasListColumn(es) {
      assert r == ProcessEntries(kind, es);
      var f := Field.Value;
      if FirstFault(es, Value).None? {
        f := Timestamp;
        if FirstFault(es, Timestamp).None? {
          f := Href;
        }
      }
      if FirstFault(es, f).Some? {
        var i :| 0 <= i < |es| && CellFault(es[i], f) == FirstFault(es, f);
        assert r.error.key == FieldKey(f);
        assert f in {Value, Timestamp, Href};
      }
    }
  }

  /** An empty nested list, reached before any other broken row, gives the
      processing error, not the invalid-JSON one. */
  lemma EmptyNestedListIsProcessingError(data: Payload, kind: Kind, i: int)
    requires ShapeFits(data, kind)
    requires 0 <= i < |EntriesOf(data)|
    requires EntriesOf(data)[i].stringListData == Some([])
    requires forall j :: 0 <= j < i ==> Readable(EntriesOf(data)[j], Value)
    ensures ProcessJsonData(data, kind) == Failure(ProcessingError(kind, IndexOutOfRange))
  {
  }

  /** When every entry has a non-empty list, a missing `value` gives the
      invalid-JSON error naming the file kind and the key. */
  lemma MissingValueIsInvalidJson(data: Payload, kind: Kind, i: int)
    requires ShapeFits(data, kind)
    requires forall j :: 0 <= j < |EntriesOf(data)| ==>
               EntriesOf(data)[j].stringListData.Some? && |EntriesOf(data)[j].stringListData.value| > 0
    requires 0 <= i < |EntriesOf(data)|
    requires EntriesOf(data)[i].stringListData.value[0].value.None?
    ensures ProcessJsonData(data, kind) == Failure(InvalidJson(kind, "value"))
  {
  }

  /** An export with no entries has no `string_list_data` column. */
  lemma EmptyExportIsInvalidJson(data: Payload, kind: Kind)
    requires ShapeFits(data, kind)
    requires EntriesOf(data) == []
    ensures ProcessJsonData(data, kind) == Failure(InvalidJson(kind, "string_list_data"))
  {
  }
}

=== FILE: records.dfy ===
/** Normalised relationship records and the username view of a snapshot. */
module Records {

  /** One normalised row: who, when (epoch seconds, naive UTC) and the profile link. */
  datatype Record = Record(username: string, timestamp: int, link: string)

  /** A snapshot is the normalised frame of one export, in file order. */
  type Snapshot = seq<Record>

  /** True when some row of `s` carries username `u`. */
  predicate Lists(s: Snapshot, u: string)
  {
    exists i | 0 <= i < |s| :: s[i].username == u
  }

  /** The set of usernames of a snapshot, as `set(df['username'])` builds it. */
  function Usernames(s: Snapshot): (names: set<string>)
    ensures forall u :: u in names <==> Lists(s, u)
  {
    set i | 0 <= i < |s| :: s[i].username
  }

  /** The username column of a snapshot, in row order. */
  function Names(s: Snapshot): (xs: seq<string>)
    ensures forall u :: u in xs <==> Lists(s, u)
  {
    var xs := seq(|s|, i requires 0 <= i < |s| => s[i].username);
    assert forall u | Lists(s, u) :: u in xs by {
      forall u | Lists(s, u) ensures u in xs {
        var i :| 0 <= i < |s| && s[i].username == u;
        assert xs[i] == u;
      }
    }
    xs
  }

  /** The usernames of a two-row snapshot. */
  lemma UsernamesOfPair(x: Record, y: Record)
    ensures Usernames([x, y]) == {x.username, y.username}
  {
    var s := [x, y];
    assert s[0] == x && s[1] == y;
  }

  /** Inserting, anywhere, a row whose username the snapshot already
      lists (whatever its timestamp and link) adds no username. */
  lemma UsernamesIgnoreRepeats(s: Snapshot, k: int, r: Record)
    requires 0 <= k <= |s| && Lists(s, r.username)
    ensures Usernames(s[..k] + [r] + s[k..]) == Usernames(s)
  {
    var t := s[..k] + [r] + s[k..];
    forall u | Lists(t, u) ensures Lists(s, u) {
      var j :| 0 <= j < |t| && t[j].username == u;
      if j < k {
        assert s[j].username == u;
      } else if k < j {
        assert s[j - 1].username == u;
      }
    }
    forall u | Lists(s, u) ensures Lists(t, u) {
      var j :| 0 <= j < |s| && s[j].username == u;
      if j < k {
        assert t[j].username == u;
      } else {
        assert t[j + 1].username == u;
      }
    }
  }
}

=== FILE: relationships.dfy ===
/** The relationship set engine: `analyze_data` and the username search
    with its mutual / follows-you / you-follow classification. */
module Relationships {
  import opened Results
  import opened Records

  /** `analyze_data`: the accounts you follow that do not follow you back,
      and the followers you do not follow back. A snapshot that has not been
      loaded yet (`None`) yields two empty sets. */
  function AnalyzeData(followers: Option<Snapshot>, following: Option<Snapshot>)
    : (r: (set<string>, set<string>))
    ensures followers.None? || following.None? ==> r == ({}, {})
    ensures followers.Some? && following.Some? ==>
              && (forall u :: u in r.0 <==> Lists(following.value, u) && !Lists(followers.value, u))
              && (forall u :: u in r.1 <==> Lists(followers.value, u) && !Lists(following.value, u))
  {
    if followers.Some? && following.Some? then
      var fs := Usernames(followers.value);
      var gs := Usernames(following.value);
      (gs - fs, fs - gs)
    else
      ({}, {})
  }

  /** Usernames present in both snapshots. */
  function MutualSet(followers: Snapshot, following: Snapshot): (m: set<string>)
    ensures forall u :: u in m <==> Lists(followers, u) && Lists(following, u)
  {
    Usernames(followers) * Usernames(following)
  }

  /** The two difference sets and the mutual set partition the union of
      usernames: pairwise disjoint, and together exactly the union. */
  lemma AnalyzePartitionsUnion(followers: Snapshot, following: Snapshot)
    ensures var (notFollowingBack, notFollowedBack) := AnalyzeData(Some(followers), Some(following));
            var mutual := MutualSet(followers, following);
            && notFollowingBack !! notFollowedBack
            && notFollowingBack !! mutual
            && notFollowedBack !! mutual
            && notFollowingBack + notFollowedBack + mutual == Usernames(followers) + Usernames(following)
  {
  }

  /** How a username relates to you, as the search tab reports it. */
  datatype Relation = Mutual | FollowsYou | YouFollow | NoRelationship

  /** The branch the search tab takes for one username. */
  function Classify(u: string, followers: Snapshot, following: Snapshot): (c: Relation)
    ensures c == Mutual <==> u in MutualSet(followers, following)
    ensures c == FollowsYou <==> u in AnalyzeData(Some(followers), Some(following)).1
    ensures c == YouFollow <==> u in AnalyzeData(Some(followers), Some(following)).0
    ensures c == NoRelationship <==> u !in Usernames(followers) + Usernames(following)
  {
    var isFollower := exists i | 0 <= i < |followers| :: followers[i].username == u;
    var isFollowing := exists i | 0 <= i < |following| :: following[i].username == u;
    if isFollower && isFollowing then Mutual
    else if isFollower then FollowsYou
    else if isFollowing then YouFollow
    else NoRelationship
  }

  /** No username occurs twice. */
  predicate Distinct(xs: seq<string>)
  {
    forall a, b :: 0 <= a < b < |xs| ==> xs[a] != xs[b]
  }

  /** `drop_duplicates()`: keep the first occurrence of each username that
      is not already in `seen`, in order. */
  function DropDuplicates(xs: seq<string>, seen: set<string>): (r: seq<string>)
    ensures forall u :: u in r <==> u in xs && u !in seen
    ensures Distinct(r)
    decreases |xs|
  {
    if |xs| == 0 then []
    else if xs[0] in seen then DropDuplicates(xs[1..], seen)
    else [xs[0]] + DropDuplicates(xs[1..], seen + {xs[0]})
  }

  /** A list that already has no duplicates comes back unchanged. */
  lemma {:induction false} DropDuplicatesOfDistinct(xs: seq<string>, seen: set<string>)
    requires Distinct(xs)
    requires forall k :: 0 <= k < |xs| ==> xs[k] !in seen
    ensures DropDuplicates(xs, seen) == xs
    decreases |xs|
  {
    if |xs| > 0 {
      var tail := xs[1..];
      forall k | 0 <= k < |tail| ensures tail[k] !in seen + {xs[0]} {
        assert tail[k] == xs[k + 1];
      }
      assert Distinct(tail) by {
        forall a, b | 0 <= a < b < |tail| ensures tail[a] != tail[b] {
          assert tail[a] == xs[a + 1] && tail[b] == xs[b + 1];
        }
      }
      DropDuplicatesOfDistinct(tail, seen + {xs[0]});
    }
  }

  /** ASCII lower-casing of one character. */
  function LowerChar(c: char): char
  {
    if 'A' <= c <= 'Z' then (c as int + 32) as char else c
  }

  function Lower(s: string): string
  {
    seq(|s|, i requires 0 <= i < |s| => LowerChar(s[i]))
  }

  /** `t` occurs in `s` starting at position `i`. */
  predicate OccursAt(t: string, s: string, i: int)
  {
    0 <= i <= |s| - |t| && s[i..i + |t|] == t
  }

  /** `t` occurs in `s` as a contiguous block. */
  predicate IsSubstring(t: string, s: string)
  {
    exists i | 0 <= i <= |s| - |t| :: OccursAt(t, s, i)
  }

  /** `str.contains(term, case=False)`, with the term read literally. */
  predicate ContainsIgnoringCase(u: string, term: string)
  {
    IsSubstring(Lower(term), Lower(u))
  }

  /** Every username contains itself, whatever the case of the query. */
  lemma ContainsItself(u: string)
    ensures ContainsIgnoringCase(u, u)
  {
    assert OccursAt(Lower(u), Lower(u), 0);
  }

  /** The usernames of `xs` that match the term, in order. */
  function Matching(xs: seq<string>, term: string): (r: seq<string>)
    ensures forall u :: u in r <==> u in xs && ContainsIgnoringCase(u, term)
    ensures Distinct(xs) ==> Distinct(r)
    decreases |xs|
  {
    if |xs| == 0 then []
    else if ContainsIgnoringCase(xs[0], term) then [xs[0]] + Matching(xs[1..], term)
    else Matching(xs[1..], term)
  }

  /** One line of the search results. */
  datatype Hit = Hit(username: string, relation: Relation)

  /** The search tab: the deduplicated union of both username columns
      (followers first), filtered by the term, each with its relation.
      An empty term runs no search. */
  function Search(term: string, followers: Snapshot, following: Snapshot): (hits: seq<Hit>)
    ensures term == [] ==> hits == []
    ensures term != [] ==> forall u ::
              (exists k :: 0 <= k < |hits| && hits[k].username == u)
              <==> u in Usernames(followers) + Usernames(following) && ContainsIgnoringCase(u, term)
    ensures forall a, b :: 0 <= a < b < |hits| ==> hits[a].username != hits[b].username
    ensures forall k :: 0 <= k < |hits| ==>
              hits[k].relation == Classify(hits[k].username, followers, following)
              && hits[k].relation != NoRelationship
  {
    if term == [] then []
    else
      var all := Names(followers) + Names(following);
      var found := Matching(DropDuplicates(all, {}), term);
      assert forall u :: u in all <==> u in Usernames(followers) + Usernames(following);
      var hits := seq(|found|, k requires 0 <= k < |found| =>
                        Hit(found[k], Classify(found[k], followers, following)));
      assert forall u :: (exists k :: 0 <= k < |hits| && hits[k].username == u) <==> u in found by {
        forall u ensures (exists k :: 0 <= k < |hits| && hits[k].username == u) <==> u in found {
          if u in found {
            var k :| 0 <= k < |found| && found[k] == u;
            assert hits[k].username == u;
          }
        }
      }
      hits
  }

  /** Searching for a username that appears in either snapshot finds it. */
  lemma SearchFindsListedUser(u: string, followers: Snapshot, following: Snapshot)
    requires u != []
    requires u in Usernames(followers) + Usernames(following)
    ensures exists k :: 0 <= k < |Search(u, followers, following)| && Search(u, followers, following)[k].username == u
  {
    ContainsItself(u);
    var hits := Search(u, followers, following);
    assert u in Usernames(followers) + Usernames(following) && ContainsIgnoringCase(u, u);
    assert (exists k :: 0 <= k < |hits| && hits[k].username == u)
           <==> u in Usernames(followers) + Usernames(following) && ContainsIgnoringCase(u, u);
  }

  /** Followers a and b, following b and c: you do not get c back, you do
      not follow a back, and b is mutual. */
  lemma AnalyzeExample(a: string, b: string, c: string, t: int, link: string)
    requires a != b && b != c && a != c
    ensures var followers := [Record(a, t, link), Record(b, t, link)];
            var following := [Record(b, t, link), Record(c, t, link)];
            && AnalyzeData(Some(followers), Some(following)) == ({c}, {a})
            && Classify(a, followers, following) == FollowsYou
            && Classify(b, followers, following) == Mutual
            && Classify(c, followers, following) == YouFollow
  {
    var followers := [Record(a, t, link), Record(b, t, link)];
    var following := [Record(b, t, link), Record(c, t, link)];
    UsernamesOfPair(followers[0], followers[1]);
    UsernamesOfPair(following[0], following[1]);
    assert Usernames(followers) == {a, b};
    assert Usernames(following) == {b, c};
    assert AnalyzeData(Some(followers), Some(following)).0 == {c};
    assert AnalyzeData(Some(followers), Some(following)).1 == {a};
  }
}

=== FILE: results.dfy ===
/** Failure-carrying values shared by every component of the model. */
module Results {

  /** An optional value: a field of the export that may be absent. */
  datatype Option<+T> = None | Some(value: T)

  /** The outcome of an operation that either yields a value or raises an error. */
  datatype Result<+T, +E> = Success(value: T) | Failure(error: E)
}

=== FILE: temporal.dfy ===
/** The temporal analytics of the growth tab: the most active hour of day,
    the ten longest-standing followers, and the peak and trough months. */
module Temporal {
  import opened Results
  import opened Records
  import Calendar

  /** The two failures: an empty snapshot has no bucket to pick, and a
      record too far from the current time overflows the loyalty span. */
  datatype AnalyticsError = EmptySnapshot | TimedeltaOverflow

  // ---------------------------------------------------------------- counting

  /** How many elements of `xs` equal `v` (one bar of `value_counts` or
      `groupby(...).size()`). */
  function Count(xs: seq<int>, v: int): nat
    decreases |xs|
  {
    if |xs| == 0 then 0 else (if xs[0] == v then 1 else 0) + Count(xs[1..], v)
  }

  /** The counts of the buckets `lo .. hi-1`, added up. */
  function SumCounts(xs: seq<int>, lo: int, hi: int): nat
    decreases hi - lo
  {
    if lo >= hi then 0 else Count(xs, lo) + SumCounts(xs, lo + 1, hi)
  }

  lemma {:induction false} SumCountsCons(x: int, ys: seq<int>, lo: int, hi: int)
    ensures SumCounts([x] + ys, lo, hi) == (if lo <= x < hi then 1 else 0) + SumCounts(ys, lo, hi)
    decreases hi - lo
  {
    if lo < hi {
      assert ([x] + ys)[1..] == ys;
      SumCountsCons(x, ys, lo + 1, hi);
    }
  }

  /** When every element falls in a bucket, the bucket counts add up to the
      number of elements: no record is lost or counted twice. */
  lemma {:induction false} CountsSumToLength(xs: seq<int>, lo: int, hi: int)
    requires forall i :: 0 <= i < |xs| ==> lo <= xs[i] < hi
    ensures SumCounts(xs, lo, hi) == |xs|
    decreases |xs|
  {
    if |xs| == 0 {
      SumCountsOfEmpty(lo, hi);
    } else {
      assert xs == [xs[0]] + xs[1..];
      SumCountsCons(xs[0], xs[1..], lo, hi);
      CountsSumToLength(xs[1..], lo, hi);
    }
  }

  lemma {:induction false} SumCountsOfEmpty(lo: int, hi: int)
    ensures SumCounts([], lo, hi) == 0
    decreases hi - lo
  {
    if lo < hi {
      SumCountsOfEmpty(lo + 1, hi);
    }
  }

  /** A sequence holding a single value puts everything in that bucket. */
  lemma {:induction false} CountOfConstant(xs: seq<int>, v: int, g: int)
    requires forall i :: 0 <= i < |xs| ==> xs[i] == v
    ensures Count(xs, g) == if g == v then |xs| else 0
    decreases |xs|
  {
    if |xs| > 0 {
      CountOfConstant(xs[1..], v, g);
    }
  }

  // ------------------------------------------------------- most active hour

  /** The `hour` column: hour of day of every record. */
  function Hours(rs: Snapshot): (hs: seq<int>)
    ensures forall i :: 0 <= i < |hs| ==> 0 <= hs[i] < 24
  {
    seq(|rs|, i requires 0 <= i < |rs| => Calendar.HourOf(rs[i].timestamp))
  }

  function HourCount(rs: Snapshot, h: int): nat
  {
    Count(Hours(rs), h)
  }

  /** `h` heads `value_counts()`: it occurs and no hour occurs more often. */
  predicate IsMostActiveHour(rs: Snapshot, h: int)
  {
    && 0 <= h < 24
    && HourCount(rs, h) > 0
    && forall g :: 0 <= g < 24 ==> HourCount(rs, g) <= HourCount(rs, h)
  }

  /** The 24 hour buckets account for every record. */
  lemma HourCountsSumToSize(rs: Snapshot)
    ensures SumCounts(Hours(rs), 0, 24) == |rs|
  {
    CountsSumToLength(Hours(rs), 0, 24);
  }

  /** A snapshot whose records all fall in hour `h` has `h` as its only
      most active hour. */
  lemma SingleHourSnapshot(rs: Snapshot, h: int)
    requires |rs| > 0
    requires forall i :: 0 <= i < |rs| ==> Calendar.HourOf(rs[i].timestamp) == h
    ensures forall g :: IsMostActiveHour(rs, g) <==> g == h
  {
    forall g ensures HourCount(rs, g) == if g == h then |rs| else 0 {
      CountOfConstant(Hours(rs), h, g);
    }
    assert 0 <= Hours(rs)[0] < 24;
  }

  /** The hour of maximal count; an empty snapshot has none (`index[0]`
      raises). Among tied hours this picks the lowest; pandas does not fix
      the order of ties, so the contract promises only a maximal hour. */
  method MostActiveHour(rs: Snapshot) returns (r: Result<int, AnalyticsError>)
    ensures r.Failure? <==> |rs| == 0
    ensures r.Failure? ==> r.error == EmptySnapshot
    ensures r.Success? ==> IsMostActiveHour(rs, r.value)
  {
    if |rs| == 0 {
      return Failure(EmptySnapshot);
    }
    var best := 0;
    var bestCount := HourCount(rs, 0);
    var h := 1;
    while h < 24
      invariant 1 <= h <= 24
      invariant 0 <= best < h
      invariant bestCount == HourCount(rs, best)
      invariant forall g :: 0 <= g < h ==> HourCount(rs, g) <= bestCount
    {
      var c := HourCount(rs, h);
      if c > bestCount {
        best, bestCount := h, c;
      }
      h := h + 1;
    }
    assert HourCount(rs, Hours(rs)[0]) > 0;
    return Success(best);
  }

  /** `f"{n:02d}"` for 0 <= n < 100. */
  function TwoDigits(n: int): (s: string)
    requires 0 <= n < 100
  {
    ['0' + (n / 10) as char, '0' + (n % 10) as char]
  }

  /** Every character is one of `0`..`9`. */
  predicate DecimalDigits(s: string)
  {
    forall i | 0 <= i < |s| :: '0' <= s[i] <= '9'
  }

  /** The number a two-digit string spells. */
  function DigitsValue(s: string): int
    requires |s| == 2
  {
    10 * (s[0] as int - '0' as int) + (s[1] as int - '0' as int)
  }

  /** The displayed window `"HH:00 - HH:00"`, ending one hour later and
      wrapping from 23 to 00. */
  function ActiveWindow(h: int): (w: string)
    requires 0 <= h < 24
  {
    TwoDigits(h) + ":00 - " + TwoDigits((h + 1) % 24) + ":00"
  }

  /** The window can be read back: it starts at `h` and ends at the next
      hour of the clock, each hour written as two decimal digits. */
  lemma ActiveWindowReadsBack(h: int)
    requires 0 <= h < 24
    ensures |ActiveWindow(h)| == 13
    ensures DecimalDigits(ActiveWindow(h)[0..2]) && DecimalDigits(ActiveWindow(h)[8..10])
    ensures DigitsValue(ActiveWindow(h)[0..2]) == h
    ensures ActiveWindow(h)[2..8] == ":00 - "
    ensures DigitsValue(ActiveWindow(h)[8..10]) == (h + 1) % 24
    ensures ActiveWindow(h)[10..] == ":00"
  {
    var w := ActiveWindow(h);
    assert w[0..2] == TwoDigits(h);
    assert w[8..10] == TwoDigits((h + 1) % 24);
  }

  lemma ActiveWindowSamples()
    ensures ActiveWindow(23) == "23:00 - 00:00"
    ensures ActiveWindow(14) == "14:00 - 15:00"
    ensures ActiveWindow(0) == "00:00 - 01:00"
  {
  }

  /** `find_most_active_time`: the window of a most active hour. */
  method FindMostActiveTime(rs: Snapshot) returns (r: Result<string, AnalyticsError>)
    ensures r.Failure? <==> |rs| == 0
    ensures r.Failure? ==> r.error == EmptySnapshot
    ensures r.Success? ==> exists h :: IsMostActiveHour(rs, h) && r.value == ActiveWindow(h)
  {
    var hour := MostActiveHour(rs);
    match hour
    case Failure(e) => return Failure(e);
    case Success(h) => return Success(ActiveWindow(h));
  }

  /** When every record is in hour 14, the window is 14:00 - 15:00. */
  lemma AllInHourFourteen(rs: Snapshot, h: int)
    requires |rs| > 0
    requires forall i :: 0 <= i < |rs| ==> Calendar.HourOf(rs[i].timestamp) == 14
    requires IsMostActiveHour(rs, h)
    ensures ActiveWindow(h) == "14:00 - 15:00"
  {
    SingleHourSnapshot(rs, 14);
  }

  // ------------------------------------------------------------ loyalty

  /** How many rows `nlargest(10, 'loyalty_days')` keeps. */
  const TopLoyal: nat := 10

  /** Row `i` comes before row `j` in `nlargest(..., keep='first')`: more
      days, or as many days and earlier in the frame. */
  predicate RanksBefore(ds: seq<int>, i: int, j: int)
    requires 0 <= i < |ds| && 0 <= j < |ds|
  {
    ds[i] > ds[j] || (ds[i] == ds[j] && i < j)
  }

  /** `picks` are the row positions `nlargest(n, ...)` returns, in order:
      min(n, |ds|) of them, ranked, and ahead of every row left out. */
  predicate IsTopRanking(ds: seq<int>, n: nat, picks: seq<int>)
  {
    && |picks| == (if n < |ds| then n else |ds|)
    && (forall k :: 0 <= k < |picks| ==> 0 <= picks[k] < |ds|)
    && (forall a, b :: 0 <= a < b < |picks| ==> RanksBefore(ds, picks[a], picks[b]))
    && (forall k, j :: 0 <= k < |picks| && 0 <= j < |ds| && j !in picks ==> RanksBefore(ds, picks[k], j))
  }

  /** Only one list of positions meets the ranking: the model's ranking
      picks exactly one list of positions. */
  lemma TopRankingIsUnique(ds: seq<int>, n: nat, p: seq<int>, q: seq<int>)
    requires IsTopRanking(ds, n, p) && IsTopRanking(ds, n, q)
    ensures p == q
  {
    if p != q {
      var k :| 0 <= k < |p| && p[k] != q[k] && forall m :: 0 <= m < k ==> p[m] == q[m] by {
        FirstDifference(p, q);
      }
      var x, y := p[k], q[k];
      assert RanksBefore(ds, y, x) by {
        if x in q {
          var m :| 0 <= m < |q| && q[m] == x;
          assert m > k;
        }
      }
      assert RanksBefore(ds, x, y) by {
        if y in p {
          var m :| 0 <= m < |p| && p[m] == y;
          assert m > k;
        }
      }
      assert false;
    }
  }

  lemma FirstDifference(p: seq<int>, q: seq<int>)
    requires |p| == |q| && p != q
    ensures exists k :: 0 <= k < |p| && p[k] != q[k] && forall m :: 0 <= m < k ==> p[m] == q[m]
  {
    var k := 0;
    while k < |p| && p[k] == q[k]
      invariant 0 <= k <= |p|
      invariant forall m :: 0 <= m < k ==> p[m] == q[m]
    {
      k := k + 1;
    }
  }

  /** The state of the selection: `picks` are ranked and ahead of every
      position still in `rest`, and each position is in exactly one of them. */
  predicate Selecting(ds: seq<int>, picks: seq<int>, rest: seq<int>)
  {
    && |picks| + |rest| == |ds|
    && (forall k :: 0 <= k < |picks| ==> 0 <= picks[k] < |ds|)
    && (forall k :: 0 <= k < |rest| ==> 0 <= rest[k] < |ds|)
    && (forall j :: 0 <= j < |ds| ==> (j in picks <==> j !in rest))
    && (forall a, b :: 0 <= a < b < |rest| ==> rest[a] != rest[b])
    && (forall a, b :: 0 <= a < b < |picks| ==> RanksBefore(ds, picks[a], picks[b]))
    && (forall k, q :: 0 <= k < |picks| && 0 <= q < |rest| ==> RanksBefore(ds, picks[k], rest[q]))
  }

  /** Moving the best remaining position to the end of `picks` keeps the
      selection state. */
  lemma SelectingStep(ds: seq<int>, picks: seq<int>, rest: seq<int>, best: int)
    requires Selecting(ds, picks, rest)
    requires 0 <= best < |rest|
    requires forall p :: 0 <= p < |rest| && p != best ==> RanksBefore(ds, rest[best], rest[p])
    ensures Selecting(ds, picks + [rest[best]], rest[..best] + rest[best + 1..])
  {
  }

  /** Position in `rest` of the row that ranks first among the rows of `rest`. */
  method BestRemaining(ds: seq<int>, rest: seq<int>) returns (best: int)
    requires |rest| > 0
    requires forall k :: 0 <= k < |rest| ==> 0 <= rest[k] < |ds|
    requires forall a, b :: 0 <= a < b < |rest| ==> rest[a] != rest[b]
    ensures 0 <= best < |rest|
    ensures forall p :: 0 <= p < |rest| && p != best ==> RanksBefore(ds, rest[best], rest[p])
  {
    best := 0;
    var q := 1;
    while q < |rest|
      invariant 0 <= best < |rest|
      invariant 1 <= q <= |rest|
      invariant forall p :: 0 <= p < q && p != best ==> RanksBefore(ds, rest[best], rest[p])
    {
      if RanksBefore(ds, rest[q], rest[best]) {
        best := q;
      }
      q := q + 1;
    }
  }

  /** Selects the top `n` positions by repeatedly taking the best remaining
      row (most days, then earliest). */
  method TopRanked(ds: seq<int>, n: nat) returns (picks: seq<int>)
    ensures IsTopRanking(ds, n, picks)
  {
    var want := if n < |ds| then n else |ds|;
    picks := [];
    var rest := seq(|ds|, i requires 0 <= i < |ds| => i);
    forall j | 0 <= j < |ds| ensures j in rest {
      assert rest[j] == j;
    }
    while |picks| < want
      invariant |picks| <= want
      invariant Selecting(ds, picks, rest)
    {
      var best := BestRemaining(ds, rest);
      SelectingStep(ds, picks, rest, best);
      picks, rest := picks + [rest[best]], rest[..best] + rest[best + 1..];
    }
    forall k, j | 0 <= k < |picks| && 0 <= j < |ds| && j !in picks ensures RanksBefore(ds, picks[k], j) {
      var q :| 0 <= q < |rest| && rest[q] == j;
    }
  }

  /** One row of the loyalty table. */
  datatype LoyaltyRow = LoyaltyRow(username: string, loyaltyDays: int)

  /** The `loyalty_days` column: whole days from each record to `now`,
      rounded towards minus infinity as `.dt.days` does. */
  function LoyaltyDays(rs: Snapshot, now: int): (ds: seq<int>)
    ensures |ds| == |rs|
    ensures forall i :: 0 <= i < |rs| ==>
              ds[i] * Calendar.SecondsPerDay <= now - rs[i].timestamp < (ds[i] + 1) * Calendar.SecondsPerDay
  {
    seq(|rs|, i requires 0 <= i < |rs| => Calendar.WholeDaysBetween(now, rs[i].timestamp))
  }

  /** Some record lies further from `now` than a `timedelta64` can span. */
  predicate SpanOverflows(rs: Snapshot, now: int)
  {
    exists i | 0 <= i < |rs| :: !Calendar.InTimedeltaRange(now - rs[i].timestamp)
  }

  /** `calculate_follower_loyalty`: the ten longest-standing records, most
      days first, earlier rows first among equals; `picks` says which input
      row each output row is. The column subtraction fails as a whole when
      any record is out of a `timedelta64`'s reach. */
  method CalculateFollowerLoyalty(rs: Snapshot, now: int) returns (r: Result<seq<LoyaltyRow>, AnalyticsError>, picks: seq<int>)
    ensures r.Failure? <==> SpanOverflows(rs, now)
    ensures r.Failure? ==> r.error == TimedeltaOverflow && picks == []
    ensures r.Success? ==> IsTopRanking(LoyaltyDays(rs, now), TopLoyal, picks)
    ensures r.Success? ==> |r.value| == |picks| == (if |rs| < TopLoyal then |rs| else TopLoyal)
    ensures r.Success? ==> forall k :: 0 <= k < |r.value| ==>
              r.value[k].username == rs[picks[k]].username &&
              r.value[k].loyaltyDays == LoyaltyDays(rs, now)[picks[k]]
    ensures r.Success? ==> forall a, b :: 0 <= a < b < |r.value| ==> r.value[a].loyaltyDays >= r.value[b].loyaltyDays
  {
    var i := 0;
    while i < |rs|
      invariant 0 <= i <= |rs|
      invariant forall j :: 0 <= j < i ==> Calendar.InTimedeltaRange(now - rs[j].timestamp)
    {
      if !Calendar.InTimedeltaRange(now - rs[i].timestamp) {
        return Failure(TimedeltaOverflow), [];
      }
      i := i + 1;
    }
    var ds := LoyaltyDays(rs, now);
    picks := TopRanked(ds, TopLoyal);
    var rows := seq(|picks|, k requires 0 <= k < |picks| => LoyaltyRow(rs[picks[k]].username, ds[picks[k]]));
    assert forall a, b :: 0 <= a < b < |rows| ==> RanksBefore(ds, picks[a], picks[b]);
    r := Success(rows);
  }

  // ------------------------------------------------------ seasonal trends

  /** The `month` column: month (1..12) of every record. */
  function Months(rs: Snapshot): (ms: seq<int>)
    ensures forall i :: 0 <= i < |ms| ==> 1 <= ms[i] <= 12
  {
    seq(|rs|, i requires 0 <= i < |rs| => Calendar.MonthOf(rs[i].timestamp))
  }

  function MonthCount(rs: Snapshot, m: int): nat
  {
    Count(Months(rs), m)
  }

  /** `idxmax` of the month counts: the lowest month with maximal count
      (months without records are not groups at all). */
  predicate IsPeakMonth(rs: Snapshot, m: int)
  {
    && 1 <= m <= 12
    && MonthCount(rs, m) > 0
    && (forall g :: 1 <= g <= 12 ==> MonthCount(rs, g) <= MonthCount(rs, m))
    && (forall g :: 1 <= g < m ==> MonthCount(rs, g) < MonthCount(rs, m))
  }

  /** `idxmin` of the month counts: the lowest month with minimal count
      among the months that have records. */
  predicate IsTroughMonth(rs: Snapshot, m: int)
  {
    && 1 <= m <= 12
    && MonthCount(rs, m) > 0
    && (forall g :: 1 <= g <= 12 && MonthCount(rs, g) > 0 ==> MonthCount(rs, m) <= MonthCount(rs, g))
    && (forall g :: 1 <= g < m && MonthCount(rs, g) > 0 ==> MonthCount(rs, m) < MonthCount(rs, g))
  }

  /** The peak and the trough are each determined by the counts. */
  lemma PeakAndTroughAreUnique(rs: Snapshot, m1: int, m2: int)
    ensures IsPeakMonth(rs, m1) && IsPeakMonth(rs, m2) ==> m1 == m2
    ensures IsTroughMonth(rs, m1) && IsTroughMonth(rs, m2) ==> m1 == m2
    ensures IsPeakMonth(rs, m1) && IsTroughMonth(rs, m2) ==> MonthCount(rs, m2) <= MonthCount(rs, m1)
  {
  }

  /** The twelve month buckets account for every record. */
  lemma MonthCountsSumToSize(rs: Snapshot)
    ensures SumCounts(Months(rs), 1, 13) == |rs|
  {
    CountsSumToLength(Months(rs), 1, 13);
  }

  /** A snapshot whose records all fall in month `m` has `m` as both peak
      and trough. */
  lemma SingleMonthSnapshot(rs: Snapshot, m: int)
    requires |rs| > 0
    requires forall i :: 0 <= i < |rs| ==> Calendar.MonthOf(rs[i].timestamp) == m
    ensures forall g :: IsPeakMonth(rs, g) <==> g == m
    ensures forall g :: IsTroughMonth(rs, g) <==> g == m
  {
    forall g ensures MonthCount(rs, g) == if g == m then |rs| else 0 {
      CountOfConstant(Months(rs), m, g);
    }
    assert 1 <= Months(rs)[0] <= 12;
  }

  /** The peak and trough months of a snapshot. */
  datatype Seasons = Seasons(peak: int, trough: int)

  /** `identify_seasonal_trends`: `idxmax` and `idxmin` over the month
      groups; an empty snapshot has no groups and `idxmax` raises. */
  method IdentifySeasonalTrends(rs: Snapshot) returns (r: Result<Seasons, AnalyticsError>)
    ensures r.Failure? <==> |rs| == 0
    ensures r.Failure? ==> r.error == EmptySnapshot
    ensures r.Success? ==> IsPeakMonth(rs, r.value.peak) && IsTroughMonth(rs, r.value.trough)
  {
    if |rs| == 0 {
      return Failure(EmptySnapshot);
    }
    var peak, trough := 0, 0;   // 0: no month with records seen yet
    var m := 1;
    while m <= 12
      invariant 1 <= m <= 13
      invariant peak == 0 <==> trough == 0
      invariant peak == 0 ==> forall g :: 1 <= g < m ==> MonthCount(rs, g) == 0
      invariant peak != 0 ==>
                  && 1 <= peak < m && MonthCount(rs, peak) > 0
                  && (forall g :: 1 <= g < m ==> MonthCount(rs, g) <= MonthCount(rs, peak))
                  && (forall g :: 1 <= g < peak ==> MonthCount(rs, g) < MonthCount(rs, peak))
      invariant trough != 0 ==>
                  && 1 <= trough < m && MonthCount(rs, trough) > 0
                  && (forall g :: 1 <= g < m && MonthCount(rs, g) > 0 ==> MonthCount(rs, trough) <= MonthCount(rs, g))
                  && (forall g :: 1 <= g < trough && MonthCount(rs, g) > 0 ==> MonthCount(rs, trough) < MonthCount(rs, g))
    {
      var c := MonthCount(rs, m);
      if c > 0 {
        if peak == 0 {
          peak, trough := m, m;
        } else {
          if c > MonthCount(rs, peak) {
            peak := m;
          }
          if c < MonthCount(rs, trough) {
            trough := m;
          }
        }
      }
      m := m + 1;
    }
    assert MonthCount(rs, Months(rs)[0]) > 0;
    return Success(Seasons(peak, trough));
  }
}
